=== FILE: README.md ===
# bug-run: the simulation layer in Dafny

The game is a lane-crossing arcade game on a 5 × 6 board. The player starts on
the bottom row. Ten enemy bugs run left to right along the five upper lanes. A
star may appear on the top row, which is water. The player steps one cell per
key press. Touching a bug costs a life. So does stepping into the water without
reaching the star. Reaching the star scores one. When a life is lost at zero
health, the game is over.

This project models everything in `js/app.js` that is not drawing or browser
wiring, as immutable records with pure step functions. The records are
`Enemy`, `Goody`, `Player`, `Scoreboard`, `Message`, and the session record
`Game`. `Game` holds the page-wide `isGameOver`, `isReady` and `scores`. Each
value of `Math.random()` becomes a parameter of type `Draw`, a real in [0, 1).
`getRandomInt` is modelled literally as `floor(r * (hi - lo + 1)) + lo`, and
its range is proved. Time, speeds and positions are `real`. The NaN position of
a despawned goody is `None`, because a comparison with NaN is always false.
A goody's visibility is undefined until its first spawned tick. It is modelled as
`false` (undefined is falsy in JavaScript).

Modules, one per component:

- `Board` (board.dfy): the board constants, positions and `getRandomInt`.
- `Collision` (collision.dfy): the bounding-box test.
- `Enemies` (enemy.dfy): enemy placement, speed and movement, plus `generateEnemies`.
- `Goodies` (goody.dfy): the spawn/despawn state machine and its invariant.
- `Players` (player.dfy): the grid, the bounds, the home cell, key-to-move mapping and move application.
- `Messages` (message.dfy): the message timer.
- `Scoreboards` (scoreboard.dfy): the scoreboard and the page-wide score pair.
- `Session` (session.dfy): the game record, `Player.update` and `Player.handleInput`, the scoreboard step, `initGame`, and one frame.
- `SessionProofs` (session.dfy): lemmas about the session invariant over single frames, key presses and whole runs of them (`Session.Play`).

The engine that calls the updates is not part of this model. `Session.Tick`
assumes the order every enemy, then the star, then the player, then the
message, then the scoreboard (see "Left out").

Points where the code's behaviour is easy to misread, each modelled as the code is written:

- The objective test in `Player.update` does not check `stars.isSpawned`. It
  relies on an absent star colliding with nothing. `Session.ComputeFlags` models
  the test as written. It then proves the test agrees with "spawned and touching"
  whenever the goody invariant holds.
- `handleInput` always records the move and always zeroes the message time,
  even when the game is over. `update` then ignores the move while the game is
  over.
- A despawn never shortens the next cooldown. While a goody is spawned, its
  cooldown stays at the initial value, which is part of `Goodies.Inv`. So every
  despawn leaves a full cooldown (`Goodies.Despawn`).
- The bounds allow y in [-20, 405). The home row y = 385 lies inside them, and
  one step down (466) lies outside, so the two agree.

## Model

| member | source | states |
|---|---|---|
| Board.CellSize | js/app.js:9-20 | A cell is exactly 101 × 81 pixels: 505/5 wide, and 606/6 high less the 20-pixel offset. |
| Board.RandomInt | js/app.js:23-26 | `floor(r*(hi-lo+1))+lo` for a draw r in [0,1) lies in [lo, hi] whenever lo ≤ hi. |
| Board.RandomIntHitsEveryValue | js/app.js:23-26 | Every integer of [lo, hi] is produced by some draw, so the range is tight. |
| Collision.Collides | js/app.js:30-49 | The four-comparison test with a 76 × 51 box on both objects holds iff the objects are less than 76 apart in x and less than 51 apart in y. |
| Collision.CollidesAt | js/app.js:42-45 | Against an absent (NaN) position the test is false; otherwise it is the box test. |
| Collision.CollidesSymmetric | js/app.js:36-48 | The test does not depend on argument order. |
| Collision.CollidesReflexive | js/app.js:36-48 | Any object at a finite position collides with itself. |
| Collision.SeparatedNeverCollide | js/app.js:36-48 | Objects one box width or one box height apart never collide. |
| Enemies.LaneY | js/app.js:90 | Row i lies at y = i·81 − 20, one of the five lane heights {-20, 61, 142, 223, 304}. |
| Enemies.LanesAreTheRows | js/app.js:90 | Rows 0..4 reach exactly the five lanes, so every lane is used. |
| Enemies.InitLoc | js/app.js:86-91 | A fresh enemy starts with x in [-606, -101] and y on one of the five lanes. |
| Enemies.InitSpeed | js/app.js:94-96 | A fresh speed is in [75, 275]. |
| Enemies.NewEnemy | js/app.js:74-83 | A new enemy is valid and starts left of the board. |
| Enemies.Update | js/app.js:100-112 | After a tick x ≤ 505. An enemy that would pass 505 is re-placed from its draws; otherwise it moved by speed·dt on the same lane at the same speed. A valid enemy stays valid when dt ≥ 0. |
| Enemies.GenerateEnemies | js/app.js:523-527 | Yields exactly n enemies, the i-th built from the i-th draw, all valid. The source appends to the global `allEnemies`; a fresh sequence is the same thing because `initGame` empties that array first (js/app.js:553). |
| Enemies.UpdateAll | js/app.js:100-112 | Yields a new sequence with each enemy updated by its own draw, in order; with dt ≥ 0 all stay valid. |
| Goodies.SpawnThreshold | js/app.js:131-134 | The roll `getRandomInt(0,n) ≤ 1` is exactly the event r < 2/(n+1), so a uniform draw spawns with chance 2/(n+1). |
| Goodies.SpawnRoll | js/app.js:131-134 | The goody spawns iff the draw is below 2/(spawnRate+1). |
| Goodies.InitLoc | js/app.js:161-167 | A spawned goody lands on a top-row cell (column·101, -20); otherwise the position is untouched. |
| Goodies.InitGoody | js/app.js:146-158 | Both timers are reset to their initial values. The spawn flag is the roll's outcome, and a spawned goody is placed on the top row. Starting from an absent position, the result satisfies the goody invariant. |
| Goodies.NewGoody | js/app.js:122-143 | The constructor keeps its parameters and starts both timers at their initial values, hidden. The goody is spawned iff the roll is ≤ 1, on a top-row cell if so and with no position otherwise. With positive timers and a non-negative rate it satisfies the invariant. |
| Goodies.Despawn | js/app.js:170-177 | The goody is unspawned with no position, and everything else is unchanged. The invariant is kept, and despawning a spawned goody leaves its cooldown full. |
| Goodies.JsRemEvenness | js/app.js:194 | JavaScript's sign-of-dividend `%` is zero modulo 2 exactly when the Euclidean one is. |
| Goodies.Flicker | js/app.js:189-195 | Visible while at least 2 s remain; below that, visible iff floor(lifespan·15) is even. |
| Goodies.Update | js/app.js:180-210 | Spawned: only the lifespan (down by dt) and the visibility change, and the goody despawns iff the lifespan is ≤ 0. Despawned: only the cooldown changes, until it is ≤ 0; then both timers reset, the roll decides, the visibility is kept, and the goody lands on a top-row cell if spawned or keeps its position if not. The invariant is kept for dt ≥ 0. |
| Messages.NewMessage | js/app.js:443-446 | A new message is empty and hidden. |
| Messages.Print | js/app.js:450-455 | Printing always shows the message, with the given text, size and length. |
| Messages.Update | js/app.js:458-468 | A hidden message is unchanged. A shown one loses dt and hides iff its length is then ≤ 0. |
| Messages.HiddenStaysHidden | js/app.js:458-468 | Once hidden, any run of ticks leaves a message unchanged. |
| Messages.ShownForItsLength | js/app.js:458-468 | After ticks of non-negative length, a shown message is still shown iff their total is below its length. |
| Players.BoundsAreTheGrid | js/app.js:352-361 | From a cell corner, `moveIsInBounds` accepts a one-cell step exactly when the step lands on a cell corner of the board. |
| Players.HomeCell | js/app.js:241-246 | The home cell is (202, 385), on the grid and in bounds. |
| Players.NewPlayer | js/app.js:223-238 | A new player is at home with no move, no stars and health 2. |
| Players.InputMove | js/app.js:332-349 | left/right/up/down give (-101,0), (101,0), (0,-81) and (0,81), and any other key keeps the pending move. |
| Players.ApplyMove | js/app.js:251-253 | The two-step x-then-y update equals the atomic move for every single-axis move. Its result is in bounds whenever the start is, and it keeps the player on the grid. A finished game never moves the player. |
| Players.DiagonalMoveTears | js/app.js:252-253 | For a diagonal move the two-step update differs from the atomic one. |
| Scoreboards.NewScoreboard | js/app.js:365-379 | The board starts mirroring the player and snapshots the score pair. |
| Scoreboards.Update | js/app.js:382-395 | Counts mirror the player. The high score never decreases, ends ≥ the stars, and is either the old high score or the stars. The last score becomes the stars iff the game is over. last ≤ high is kept. |
| Scoreboards.UpdateIdempotent | js/app.js:386-394 | Running the scoreboard update twice equals running it once. |
| Session.HitAny | js/app.js:263-268 | The enemy loop reports a hit iff some enemy collides with the player. |
| Session.ComputeFlags | js/app.js:258-284 | gotObjective excludes hitEnemy, and under the goody invariant it also excludes gotWet and agrees with "spawned and touching". gotWet implies the water row, and the water row with no star implies gotWet. On the grid and under the goody invariant, gotWet holds iff the player is in the water row and not on the spawned star's cell. |
| Session.PlayerUpdate | js/app.js:249-315 | The move is cleared and bounds are kept. Any flag sends the player home. Stars rise by 1 iff gotObjective, which also despawns the star. The game ends iff damage happens at health 0. Otherwise damage costs exactly one life, with the matching message. Health stays ≥ 0 and drops by at most 1. |
| Session.HandleInput | js/app.js:323-350 | Zeroes the message time and touches nothing else of the message, sets ready iff ready or game over, and records the move `InputMove` gives for the key: a single step for an arrow key, the pending move for any other. Nothing else changes. |
| Session.ScoreboardUpdate | js/app.js:382-395 | The scoreboard mirrors the player's health and stars; the high score becomes max(old high, stars) and the board keeps its high/last snapshot; the last score becomes the stars iff the game is over. Player, enemies, star, message and flags are unchanged. |
| Session.Tick | js/app.js:100-468 | One frame updates every enemy with its draws; the star ends as its own update or that update despawned; the player, game-over flag and star are exactly `PlayerUpdate`'s on the updated enemies and star (so the star is despawned exactly when the player collects it), and the message is that update's message after `Messages.Update`; the pending move is cleared; stars rise by at most one and health drops by at most one; a finished game stays finished; the high score becomes max(old high, stars); the scoreboard mirrors the player and keeps its high/last snapshot. |
| Session.InitGame | js/app.js:543-559 | Opening message, flags cleared, player at home with health 2 and no stars, ten enemies from the draws, and the star goody (2, 5, 7, objective) built from its draw: fresh timers, spawned iff its roll is ≤ 1, on a top-row cell if spawned and absent otherwise. The score pair is kept, the scoreboard is a new one snapshotting it, and the session invariant holds. |
| SessionProofs.HomeIsSafe | js/app.js:241-284 | At the home cell no valid enemy collides, it is not the water and it is not the star's row, so no flag is raised. |
| SessionProofs.WaterIsTopRow | js/app.js:271 | On the grid, the water test `y < 61` holds exactly on the top row (y = -20). |
| SessionProofs.GridCollisionIsSameCell | js/app.js:280 | For a player on the grid, touching a top-row star means standing on its cell. |
| SessionProofs.PlayerUpdateKeepsInv | js/app.js:249-315 | The player update keeps the player, goody, enemy and flag parts of the session invariant. |
| SessionProofs.GameOverIsQuiet | js/app.js:249-315 | After game over the player update changes nothing but clearing the pending move. |
| SessionProofs.TickKeepsInv | js/app.js:100-468 | A whole frame keeps the session invariant for dt ≥ 0: every enemy, then the star, the player, the message and the scoreboard. |
| SessionProofs.HandleInputKeepsInv | js/app.js:323-330 | A key press keeps the invariant and leaves ready set exactly when the game is over. |
| SessionProofs.InputDismissesMessage | js/app.js:325 | The message a key press leaves hides at its next update. |
| SessionProofs.StepKeepsInv | js/app.js:286-314 | One frame or key press keeps the invariant and never raises health or lowers the stars or the high score. A finished game stays finished, with its stars and health frozen. |
| SessionProofs.PlayKeepsInv | js/app.js:286-314 | The same holds over any run of frames and key presses (by induction on the run). |

## Left out

- Every `render` method, `printStringCenter`, and the final-score text that `Message.render` writes into the message: canvas drawing only.
- The `keyup` listener and its key-code table: browser wiring. The model takes the resulting direction symbol, with `Unmapped` for any other key.
- `showGameOver`: defined in js/app.js but not called from it; its only effect is a `print`.
- The `w` and `h` fields `checkCollisions` writes onto both objects: they are never read elsewhere, so the box size is a pair of constants (`Collision.BoxWidth`, `Collision.BoxHeight`).
- The distribution of `Math.random()`: draws are parameters. `Goodies.SpawnThreshold` states the spawn event as an interval of the draw, but no probability is computed.
- IEEE floating point: time, speeds and positions are exact reals.
- Sprite paths, the goody's `name`, `Resources` and `ctx`: rendering only.
- The unused `dt` parameter of `handleInput`.
- Goodies.InitGoody: the invariant is stated only for a goody with no position. `initGoody` on a spawned goody whose roll fails would keep a stale position, but the code only calls it from the constructor and from the despawned branch of `update`.
- Session.Tick: the engine that calls the updates is not part of this model, and nothing in js/app.js fixes their order. `Tick` assumes every enemy, then the star, then the player, then the message, then the scoreboard.
- Enemies.Update: validity is preserved only for dt ≥ 0. The frame time is never negative, and a negative one could move an enemy further left than its staging range.

=== FILE: board.dfy ===
/** Board geometry, positions and the random-integer helper shared by every
    entity of the game. */
module Board {

  /** Canvas size in pixels, handed to the rendering engine. */
  const CanvasWidth: int := 505
  const CanvasHeight: int := 606

  /** Vertical pixel shift applied to every row: sprites are taller than cells. */
  const HeightOffset: real := -20.0
  const NumRows: int := 6
  const NumCols: int := 5

  /** Size of one board cell: 101 x 81 pixels. */
  const CellWidth: real := CanvasWidth as real / NumCols as real
  const CellHeight: real := CanvasHeight as real / NumRows as real + HeightOffset

  /** The division in the cell size is exact, so grid coordinates are exact numbers. */
  lemma CellSize()
    ensures CellWidth == 101.0 && CellHeight == 81.0
  {
  }

  /** Pixel x of the five board columns, shared by the player and the goodies. */
  const Columns: set<real> := {0.0, 101.0, 202.0, 303.0, 404.0}

  /** A pixel position (the `x`/`y` fields every entity carries). */
  datatype Pos = Pos(x: real, y: real)

  /** A position that may be absent: `None` stands for the NaN coordinates of
      an entity taken off the board. */
  datatype Option<T> = None | Some(value: T)

  /** One value of `Math.random()`: a real in [0, 1). */
  type Draw = r: real | 0.0 <= r < 1.0

  /** Scaling a draw by a positive integer stays inside [0, k). */
  lemma ScaledDrawBounds(r: Draw, k: int)
    requires k >= 1
    ensures 0.0 <= r * k as real < k as real
  {
  }

  /** `getRandomInt(lo, hi)`: `floor(r * (hi - lo + 1)) + lo` for a draw `r`.
      For a non-empty range the result lies in [lo, hi]. */
  function RandomInt(r: Draw, lo: int, hi: int): (n: int)
    ensures lo <= hi ==> lo <= n <= hi
  {
    var scaled := r * (hi - lo + 1) as real;
    if lo <= hi then
      ScaledDrawBounds(r, hi - lo + 1);
      scaled.Floor + lo
    else
      scaled.Floor + lo
  }

  /** Every value of a non-empty range is reachable: the draw `(n - lo) / (hi - lo + 1)`
      yields `n`, so the range bound of `RandomInt` is tight. */
  lemma RandomIntHitsEveryValue(lo: int, hi: int, n: int)
    requires lo <= n <= hi
    ensures var k := (hi - lo + 1) as real;
            var r: Draw := (n - lo) as real / k;
            RandomInt(r, lo, hi) == n
  {
  }
}

=== FILE: collision.dfy ===
/** The axis-aligned bounding-box test used between the player and every
    other entity. Both boxes get the same fixed size, a cell shrunk to
    approximate the visible part of a sprite. */
module Collision {
  import opened Board

  /** Box width: a cell minus 25 pixels (76). */
  const BoxWidth: real := CellWidth - 25.0
  /** Box height: a cell plus the row offset minus 10 pixels (51). */
  const BoxHeight: real := CellHeight + HeightOffset - 10.0

  function Abs(v: real): real
  {
    if v < 0.0 then -v else v
  }

  /** `checkCollisions`: the four-comparison overlap test. Two boxes of the same
      size overlap exactly when their corners are closer than one box on both axes. */
  function Collides(a: Pos, b: Pos): (hit: bool)
    ensures hit <==> Abs(a.x - b.x) < 76.0 && Abs(a.y - b.y) < 51.0
  {
    CellSize();
    a.x < b.x + BoxWidth &&
    a.x + BoxWidth > b.x &&
    a.y < b.y + BoxHeight &&
    BoxHeight + a.y > b.y
  }

  /** The test against an entity that may be off the board. An absent position
      stands for NaN coordinates, and every comparison with NaN is false. */
  function CollidesAt(a: Pos, b: Option<Pos>): (hit: bool)
    ensures hit <==> b.Some? && Collides(a, b.value)
  {
    match b
    case None => false
    case Some(q) => Collides(a, q)
  }

  /** The test does not depend on the order of its arguments. */
  lemma CollidesSymmetric(a: Pos, b: Pos)
    ensures Collides(a, b) == Collides(b, a)
  {
  }

  /** Every object at a finite position collides with itself. */
  lemma CollidesReflexive(a: Pos)
    ensures Collides(a, a)
  {
  }

  /** Objects a box width or a box height apart never collide. */
  lemma SeparatedNeverCollide(a: Pos, b: Pos)
    requires Abs(a.x - b.x) >= BoxWidth || Abs(a.y - b.y) >= BoxHeight
    ensures !Collides(a, b)
  {
  }
}

=== FILE: enemy.dfy ===
/** Enemies: bugs crossing the board left to right along one lane each. */
module Enemies {
  import opened Board

  /** An enemy: its position and its speed in pixels per second. */
  datatype Enemy = Enemy(pos: Pos, speed: int)

  /** The three `Math.random()` values an (re)initialisation consumes, in order. */
  datatype EnemyDraw = EnemyDraw(stagger: Draw, row: Draw, speed: Draw)

  const MinSpeed: int := 75
  const MaxSpeed: int := 275

  /** Pixel heights of the five lanes, every row except the player's home row. */
  const Lanes: set<real> := {-20.0, 61.0, 142.0, 223.0, 304.0}

  /** Enemies start staged off the left edge, at most one canvas plus one cell away. */
  const LeftmostStart: real := -606.0
  const RightmostStart: real := -101.0

  /** A well-formed enemy: inside its horizontal range, on a lane, at an allowed speed. */
  predicate Valid(e: Enemy)
  {
    && LeftmostStart <= e.pos.x <= CanvasWidth as real
    && e.pos.y in Lanes
    && MinSpeed <= e.speed <= MaxSpeed
  }

  /** The pixel height of lane `row`. */
  function LaneY(row: int): (y: real)
    requires 0 <= row <= NumRows - 2
    ensures y in Lanes
    ensures y == row as real * 81.0 - 20.0
  {
    CellSize();
    row as real * CellHeight + HeightOffset
  }

  /** The five lane rows reach exactly the five lanes: every lane is used. */
  lemma LanesAreTheRows()
    ensures {LaneY(0), LaneY(1), LaneY(2), LaneY(3), LaneY(4)} == Lanes
  {
  }

  /** `Enemy.initLoc`: a random stagger left of the board and a random lane. */
  function InitLoc(d: EnemyDraw): (p: Pos)
    ensures LeftmostStart <= p.x <= RightmostStart
    ensures p.y in Lanes
  {
    CellSize();
    Pos(RandomInt(d.stagger, -CanvasWidth, 0) as real - CellWidth,
        LaneY(RandomInt(d.row, 0, NumRows - 2)))
  }

  /** `Enemy.initSpeed`: a random speed in [75, 275]. */
  function InitSpeed(d: EnemyDraw): (s: int)
    ensures MinSpeed <= s <= MaxSpeed
  {
    RandomInt(d.speed, MinSpeed, MaxSpeed)
  }

  /** The `Enemy` constructor: place, then pick a speed. */
  function NewEnemy(d: EnemyDraw): (e: Enemy)
    ensures Valid(e)
    ensures e.pos.x <= RightmostStart
  {
    Enemy(InitLoc(d), InitSpeed(d))
  }

  /** `Enemy.update`: advance by `speed * dt`; once past the right edge of the
      canvas, start over with a fresh placement and speed. */
  function Update(e: Enemy, dt: real, d: EnemyDraw): (r: Enemy)
    ensures r.pos.x <= CanvasWidth as real
    ensures e.pos.x + e.speed as real * dt > CanvasWidth as real ==> r == NewEnemy(d)
    ensures e.pos.x + e.speed as real * dt <= CanvasWidth as real ==>
              r.pos == Pos(e.pos.x + e.speed as real * dt, e.pos.y) && r.speed == e.speed
    ensures Valid(e) && dt >= 0.0 ==> Valid(r)
  {
    var moved := e.pos.x + e.speed as real * dt;
    if moved > CanvasWidth as real then NewEnemy(d)
    else
      assert Valid(e) && dt >= 0.0 ==> e.speed as real * dt >= 0.0;
      e.(pos := e.pos.(x := moved))
  }

  /** `generateEnemies`: one new enemy per draw, in order. */
  method GenerateEnemies(n: nat, draws: seq<EnemyDraw>) returns (es: seq<Enemy>)
    requires |draws| >= n
    ensures |es| == n
    ensures forall i :: 0 <= i < n ==> es[i] == NewEnemy(draws[i])
    ensures forall i :: 0 <= i < n ==> Valid(es[i])
  {
    es := [];
    var i := 0;
    while i < n
      invariant 0 <= i <= n
      invariant |es| == i
      invariant forall j :: 0 <= j < i ==> es[j] == NewEnemy(draws[j])
    {
      es := es + [NewEnemy(draws[i])];
      i := i + 1;
    }
  }

  /** Every enemy's update of one tick, in order. */
  function UpdateAll(es: seq<Enemy>, dt: real, draws: seq<EnemyDraw>): (rs: seq<Enemy>)
    requires |draws| == |es|
    ensures |rs| == |es|
    ensures forall i :: 0 <= i < |es| ==> rs[i] == Update(es[i], dt, draws[i])
    ensures dt >= 0.0 && (forall i :: 0 <= i < |es| ==> Valid(es[i])) ==>
              forall i :: 0 <= i < |rs| ==> Valid(rs[i])
  {
    seq(|es|, i requires 0 <= i < |es| => Update(es[i], dt, draws[i]))
  }
}

=== FILE: goody.dfy ===
/** Goodies: a collectible that spawns on the top row by chance, lives for a
    while (flickering near the end), then waits out a cooldown before it rolls
    again. The game uses a single instance, the star. */
module Goodies {
  import opened Board

  /** A goody. `spawnRate`, `cooldownInit`, `lifespanInit` and `isObjective`
      are fixed at construction; `pos` is `None` while the goody is off the board. */
  datatype Goody = Goody(
    spawnRate: int,
    cooldownInit: real,
    lifespanInit: real,
    isObjective: bool,
    spawned: bool,
    visible: bool,
    pos: Option<Pos>,
    cooldown: real,
    lifespan: real)

  /** The two `Math.random()` values an initialisation may consume: the spawn
      roll, then (only if spawned) the column. */
  datatype GoodyDraw = GoodyDraw(odds: Draw, column: Draw)

  /** Seconds of remaining lifespan below which the goody flickers. */
  const FlickerThreshold: real := 2.0
  /** `3 * flickerSpeed` with `flickerSpeed = 5`: flicker phases per second. */
  const FlickerRate: real := 15.0

  /** A cell of the top row, where goodies appear. */
  predicate TopRowCell(p: Pos)
  {
    p.x in Columns && p.y == HeightOffset
  }

  /** The construction parameters make sense: a non-empty roll range and positive timers. */
  predicate ConfigOk(g: Goody)
  {
    g.spawnRate >= 0 && g.cooldownInit > 0.0 && g.lifespanInit > 0.0
  }

  /** The state-machine invariant: on the board exactly while spawned, always on
      a top-row cell; while spawned the cooldown sits at its initial value and the
      lifespan is running; while despawned the cooldown is running. */
  predicate Inv(g: Goody)
  {
    && ConfigOk(g)
    && (g.spawned <==> g.pos.Some?)
    && (g.pos.Some? ==> TopRowCell(g.pos.value))
    && (g.spawned ==> g.cooldown == g.cooldownInit && 0.0 < g.lifespan <= g.lifespanInit)
    && (!g.spawned ==> 0.0 < g.cooldown <= g.cooldownInit)
  }

  /** For a positive divisor, being below a quotient is being below its numerator
      once scaled. */
  lemma BelowQuotient(r: real, c: real, k: real)
    requires k > 0.0
    ensures r < c / k <==> r * k < c
  {
  }

  /** The roll `floor(r * (n + 1)) <= 1` is the event `r < 2 / (n + 1)`: under a
      uniform draw, a chance of 2 in n + 1. */
  lemma SpawnThreshold(n: int, r: Draw)
    requires n >= 0
    ensures RandomInt(r, 0, n) <= 1 <==> r < 2.0 / (n + 1) as real
  {
    var k := (n + 1) as real;
    var scaled := r * k;
    assert RandomInt(r, 0, n) == scaled.Floor;
    assert scaled.Floor <= 1 <==> scaled < 2.0;
    BelowQuotient(r, 2.0, k);
  }

  /** `setIsSpawned`: roll an integer in [0, spawnRate] and spawn iff it is at most 1. */
  function SpawnRoll(spawnRate: int, r: Draw): (spawned: bool)
    ensures spawnRate >= 0 ==> (spawned <==> r < 2.0 / (spawnRate + 1) as real)
  {
    var odds := RandomInt(r, 0, spawnRate);
    if spawnRate >= 0 then
      SpawnThreshold(spawnRate, r);
      !(odds > 1)
    else
      !(odds > 1)
  }

  /** `Goody.initLoc`: a random top-row column if spawned, otherwise the
      position is left as it was. */
  function InitLoc(spawned: bool, old_pos: Option<Pos>, d: GoodyDraw): (p: Option<Pos>)
    ensures spawned ==> p.Some? && TopRowCell(p.value)
    ensures !spawned ==> p == old_pos
  {
    CellSize();
    if spawned then
      var col := RandomInt(d.column, 0, NumCols - 1);
      assert 0 <= col <= 4;
      Some(Pos(col as real * CellWidth, HeightOffset))
    else old_pos
  }

  /** `initGoody`: roll, reset both timers to their initial values, and place. */
  function InitGoody(g: Goody, d: GoodyDraw): (r: Goody)
    ensures r.spawnRate == g.spawnRate && r.cooldownInit == g.cooldownInit
    ensures r.lifespanInit == g.lifespanInit && r.isObjective == g.isObjective
    ensures r.visible == g.visible
    ensures r.cooldown == g.cooldownInit && r.lifespan == g.lifespanInit
    ensures r.spawned <==> RandomInt(d.odds, 0, g.spawnRate) <= 1
    ensures r.spawned ==> r.pos.Some? && TopRowCell(r.pos.value)
    ensures !r.spawned ==> r.pos == g.pos
    ensures ConfigOk(g) && g.pos == None ==> Inv(r)
  {
    var spawned := SpawnRoll(g.spawnRate, d.odds);
    g.(spawned := spawned,
       cooldown := g.cooldownInit,
       lifespan := g.lifespanInit,
       pos := InitLoc(spawned, g.pos, d))
  }

  /** The `Goody` constructor: store the parameters, then `initGoody`. Before the
      first placement the position is undefined, which collides with nothing. */
  function NewGoody(spawnRate: int, cooldown: real, lifespan: real, isObjective: bool,
                    d: GoodyDraw): (r: Goody)
    ensures r.spawnRate == spawnRate && r.cooldownInit == cooldown
    ensures r.lifespanInit == lifespan && r.isObjective == isObjective
    ensures r.cooldown == cooldown && r.lifespan == lifespan && !r.visible
    ensures r.spawned <==> RandomInt(d.odds, 0, spawnRate) <= 1
    ensures r.spawned ==> r.pos.Some? && TopRowCell(r.pos.value)
    ensures !r.spawned ==> r.pos == None
    ensures spawnRate >= 0 && cooldown > 0.0 && lifespan > 0.0 ==> Inv(r)
  {
    InitGoody(Goody(spawnRate, cooldown, lifespan, isObjective, false, false, None, cooldown, lifespan), d)
  }

  /** `despawn`: take the goody off the board. The timers are not touched, so a
      goody despawned from a valid spawned state still holds its full cooldown. */
  function Despawn(g: Goody): (r: Goody)
    ensures !r.spawned && r.pos == None
    ensures r.cooldown == g.cooldown && r.lifespan == g.lifespan && r.visible == g.visible
    ensures r.spawnRate == g.spawnRate && r.cooldownInit == g.cooldownInit
    ensures r.lifespanInit == g.lifespanInit && r.isObjective == g.isObjective
    ensures Inv(g) ==> Inv(r)
    ensures Inv(g) && g.spawned ==> r.cooldown == r.cooldownInit
  {
    g.(spawned := false, pos := None)
  }

  /** JavaScript's `%`, whose result takes the sign of the dividend. */
  function JsRem(a: int, b: int): int
    requires b > 0
  {
    if a >= 0 then a % b else -((-a) % b)
  }

  /** For the parity test `% 2 === 0` the sign convention does not matter:
      JavaScript's remainder is zero exactly when Dafny's is. */
  lemma JsRemEvenness(n: int)
    ensures JsRem(n, 2) == 0 <==> n % 2 == 0
  {
  }

  /** Visibility after a spawned tick: shown while at least two seconds remain,
      then on or off by the parity of `floor(lifespan * 15)`. */
  function Flicker(lifespan: real): (visible: bool)
    ensures lifespan >= FlickerThreshold ==> visible
    ensures lifespan < FlickerThreshold ==> (visible <==> (lifespan * FlickerRate).Floor % 2 == 0)
  {
    var rate := (lifespan * FlickerRate).Floor;
    JsRemEvenness(rate);
    if lifespan < FlickerThreshold then JsRem(rate, 2) == 0 else true
  }

  /** `Goody.update`. While spawned: count the lifespan down, recompute the
      flicker, and despawn once it runs out. While despawned: count the cooldown
      down and start over with `initGoody` once it runs out. */
  function Update(g: Goody, dt: real, d: GoodyDraw): (r: Goody)
    ensures r.spawnRate == g.spawnRate && r.cooldownInit == g.cooldownInit
    ensures r.lifespanInit == g.lifespanInit && r.isObjective == g.isObjective
    ensures g.spawned ==>
              && r.lifespan == g.lifespan - dt
              && r.cooldown == g.cooldown
              && r.visible == Flicker(r.lifespan)
              && (r.spawned <==> r.lifespan > 0.0)
              && (r.spawned ==> r.pos == g.pos)
              && (!r.spawned ==> r.pos == None)
    ensures !g.spawned && g.cooldown - dt > 0.0 ==>
              r == g.(cooldown := g.cooldown - dt)
    ensures !g.spawned && g.cooldown - dt <= 0.0 ==>
              && r.cooldown == r.cooldownInit
              && r.lifespan == r.lifespanInit
              && (r.spawned <==> RandomInt(d.odds, 0, g.spawnRate) <= 1)
              && r.visible == g.visible
              && (r.spawned ==> r.pos.Some? && TopRowCell(r.pos.value))
              && (!r.spawned ==> r.pos == g.pos)
    ensures Inv(g) && dt >= 0.0 ==> Inv(r)
  {
    if g.spawned then
      var lifespan := g.lifespan - dt;
      var ticked := g.(visible := Flicker(lifespan), lifespan := lifespan);
      if lifespan <= 0.0 then Despawn(ticked) else ticked
    else
      var cooldown := g.cooldown - dt;
      var ticked := g.(cooldown := cooldown);
      if cooldown <= 0.0 then InitGoody(ticked, d) else ticked
  }
}

=== FILE: message.dfy ===
/** The message overlay: one line of text shown for a limited time. */
module Messages {

  /** `text` and `fontSize` feed the renderer; `length` is the remaining display
      time in seconds. */
  datatype Message = Message(text: string, fontSize: int, length: real, onDisplay: bool)

  /** The `Message` constructor: empty and hidden. Its font size and length are
      undefined in the game until the first `print`; here they are zero. */
  function NewMessage(): (m: Message)
    ensures !m.onDisplay && m.text == ""
  {
    Message("", 0, 0.0, false)
  }

  /** `Message.print`: replace the message and show it, whatever was shown before. */
  function Print(text: string, fontSize: int, length: real): (m: Message)
    ensures m.onDisplay
    ensures m.text == text && m.fontSize == fontSize && m.length == length
  {
    Message(text, fontSize, length, true)
  }

  /** `Message.update`: a hidden message is left alone; a shown one counts down
      and hides once its time is up. */
  function Update(m: Message, dt: real): (r: Message)
    ensures !m.onDisplay ==> r == m
    ensures m.onDisplay ==> r.length == m.length - dt && (r.onDisplay <==> r.length > 0.0)
    ensures r.text == m.text && r.fontSize == m.fontSize
  {
    if m.onDisplay then
      var length := m.length - dt;
      m.(length := length, onDisplay := length > 0.0)
    else m
  }

  /** Total time of a run of ticks. */
  function Elapsed(dts: seq<real>): real
  {
    if |dts| == 0 then 0.0 else dts[0] + Elapsed(dts[1..])
  }

  /** The message after one `update` per tick of `dts`. */
  function Run(m: Message, dts: seq<real>): Message
    decreases |dts|
  {
    if |dts| == 0 then m else Run(Update(m, dts[0]), dts[1..])
  }

  lemma {:induction false} ElapsedNonNegative(dts: seq<real>)
    requires forall i :: 0 <= i < |dts| ==> dts[i] >= 0.0
    ensures Elapsed(dts) >= 0.0
  {
    if |dts| > 0 {
      ElapsedNonNegative(dts[1..]);
    }
  }

  /** Once hidden, a message stays hidden until the next `print`. */
  lemma {:induction false} HiddenStaysHidden(m: Message, dts: seq<real>)
    requires !m.onDisplay
    ensures Run(m, dts) == m
    decreases |dts|
  {
    if |dts| > 0 {
      HiddenStaysHidden(Update(m, dts[0]), dts[1..]);
    }
  }

  /** A shown message stays on display exactly as long as the time elapsed is
      below its length: after ticks of non-negative length it is still shown
      iff their total is less than the length it had. */
  lemma {:induction false} ShownForItsLength(m: Message, dts: seq<real>)
    requires m.onDisplay
    requires forall i :: 0 <= i < |dts| ==> dts[i] >= 0.0
    requires |dts| > 0 || m.length > 0.0
    ensures Run(m, dts).onDisplay <==> Elapsed(dts) < m.length
    decreases |dts|
  {
    if |dts| > 0 {
      var next := Update(m, dts[0]);
      if next.onDisplay {
        ShownForItsLength(next, dts[1..]);
      } else {
        HiddenStaysHidden(next, dts[1..]);
        ElapsedNonNegative(dts[1..]);
      }
    }
  }
}

=== FILE: player.dfy ===
/** The player: a token that steps one cell at a time, from its home cell on
    the bottom row up towards the water. */
module Players {
  import opened Board

  /** The symbol the keyboard wiring hands over; `Unmapped` is any other key. */
  datatype Direction = Left | Up | Right | Down | Unmapped

  /** A player: its position, the move requested since the last tick, the stars
      collected, and the lives left. */
  datatype Player = Player(pos: Pos, move: Pos, stars: int, health: int)

  const NoMove: Pos := Pos(0.0, 0.0)
  const StartHealth: int := 2

  /** Pixel y of the six rows. */
  const GridYs: set<real> := {-20.0, 61.0, 142.0, 223.0, 304.0, 385.0}

  /** A position on the corner of a board cell. */
  predicate OnGrid(p: Pos)
  {
    p.x in Columns && p.y in GridYs
  }

  /** The four single-cell steps. */
  predicate SingleStep(m: Pos)
  {
    m in {Pos(-101.0, 0.0), Pos(101.0, 0.0), Pos(0.0, -81.0), Pos(0.0, 81.0)}
  }

  /** `moveIsInBounds`: the position plus the move lies within
      x in [0, 505) and y in [-20, 405). */
  predicate MoveIsInBounds(pos: Pos, move: Pos)
  {
    && pos.x + move.x >= 0.0
    && pos.x + move.x < CellWidth * NumCols as real
    && pos.y + move.y >= 0.0 + HeightOffset
    && pos.y + move.y < CellHeight * (NumRows - 1) as real
  }

  predicate InBounds(pos: Pos)
  {
    MoveIsInBounds(pos, NoMove)
  }

  /** From a cell corner, the bounds test accepts a one-cell step exactly when
      the step lands on another cell corner: the bounds are the board. */
  lemma BoundsAreTheGrid(pos: Pos, move: Pos)
    requires OnGrid(pos) && SingleStep(move)
    ensures MoveIsInBounds(pos, move) <==> OnGrid(Pos(pos.x + move.x, pos.y + move.y))
  {
    CellSize();
  }

  /** `Player.initLoc`: the middle column of the bottom row. */
  const Home: Pos := Pos(CellWidth * (NumCols / 2) as real, CellHeight * (NumRows - 1) as real + HeightOffset)

  /** The home cell is (202, 385): on the grid, in bounds, and on the bottom row,
      the one row no enemy lane uses. */
  lemma HomeCell()
    ensures Home == Pos(202.0, 385.0)
    ensures OnGrid(Home) && InBounds(Home)
  {
  }

  /** A well-formed player: on the grid and in bounds, with a pending move that
      is nothing or one step, and health between 0 and its starting value. */
  predicate Ok(p: Player)
  {
    && InBounds(p.pos)
    && OnGrid(p.pos)
    && (p.move == NoMove || SingleStep(p.move))
    && 0 <= p.health <= StartHealth
    && p.stars >= 0
  }

  /** The `Player` constructor. */
  function NewPlayer(): (p: Player)
    ensures Ok(p)
    ensures p.pos == Home && p.move == NoMove
    ensures p.stars == 0 && p.health == StartHealth
  {
    HomeCell();
    Player(Home, NoMove, 0, StartHealth)
  }

  /** The move `handleInput` records for a key: one cell left, right, up or
      down; any other key keeps the move already pending. */
  function InputMove(d: Direction, pending: Pos): (m: Pos)
    ensures d == Unmapped ==> m == pending
    ensures d != Unmapped ==> SingleStep(m)
    ensures d == Left ==> m == Pos(-CellWidth, 0.0)
    ensures d == Right ==> m == Pos(CellWidth, 0.0)
    ensures d == Up ==> m == Pos(0.0, -CellHeight)
    ensures d == Down ==> m == Pos(0.0, CellHeight)
  {
    CellSize();
    match d
    case Left => Pos(-CellWidth, 0.0)
    case Right => Pos(CellWidth, 0.0)
    case Up => Pos(0.0, -CellHeight)
    case Down => Pos(0.0, CellHeight)
    case Unmapped => pending
  }

  /** The move applied as one step: the whole move if allowed and in bounds,
      otherwise none of it. */
  function ApplyMoveAtomic(pos: Pos, move: Pos, gameOver: bool): Pos
  {
    if !gameOver && MoveIsInBounds(pos, move) then Pos(pos.x + move.x, pos.y + move.y) else pos
  }

  /** The first two statements of `Player.update`: x and y are moved one after
      the other, and the bounds test for y is evaluated after x has already
      moved. For the single-axis moves the game produces this equals the atomic
      step; the result stays in bounds for any move. */
  function ApplyMove(pos: Pos, move: Pos, gameOver: bool): (r: Pos)
    ensures move.x == 0.0 || move.y == 0.0 ==> r == ApplyMoveAtomic(pos, move, gameOver)
    ensures InBounds(pos) ==> InBounds(r)
    ensures gameOver ==> r == pos
    ensures OnGrid(pos) && InBounds(pos) && (move == NoMove || SingleStep(move)) ==> OnGrid(r)
  {
    CellSize();
    var x := pos.x + (if !gameOver && MoveIsInBounds(pos, move) then move.x else 0.0);
    var y := pos.y + (if !gameOver && MoveIsInBounds(Pos(x, pos.y), move) then move.y else 0.0);
    Pos(x, y)
  }

  /** A diagonal move would tear: x moves, then the y test sees x moved twice and
      refuses. Such moves never arise from `handleInput`. */
  lemma DiagonalMoveTears()
    ensures ApplyMove(Pos(303.0, 385.0), Pos(101.0, -81.0), false) == Pos(404.0, 385.0)
    ensures ApplyMoveAtomic(Pos(303.0, 385.0), Pos(101.0, -81.0), false) == Pos(404.0, 304.0)
  {
  }
}

=== FILE: scoreboard.dfy ===
/** The scoreboard: a mirror of the player's health and stars, and the high and
    last scores kept for the whole page session. */
module Scoreboards {

  /** The page-wide `scores` pair. A new game does not reset it. */
  datatype Scores = Scores(high: int, last: int)

  /** The scoreboard of one game. `highScore` and `lastScore` are the values the
      pair held when the board was built; `update` writes the pair itself. */
  datatype Scoreboard = Scoreboard(healthCount: int, starCount: int, highScore: int, lastScore: int)

  /** The result of one `update`: the board and the new score pair. */
  datatype Updated = Updated(board: Scoreboard, scores: Scores)

  /** A coherent score pair: the last score never exceeds the high score. */
  predicate ScoresOk(s: Scores)
  {
    0 <= s.last <= s.high
  }

  /** The `Scoreboard` constructor. */
  function NewScoreboard(health: int, stars: int, s: Scores): (b: Scoreboard)
    ensures b.healthCount == health && b.starCount == stars
    ensures b.highScore == s.high && b.lastScore == s.last
  {
    Scoreboard(health, stars, s.high, s.last)
  }

  /** `Scoreboard.update`: mirror the player; while the game is over record the
      stars as the last score; raise the high score to the stars if they beat it. */
  function Update(b: Scoreboard, health: int, stars: int, gameOver: bool, s: Scores): (u: Updated)
    ensures u.board.healthCount == health && u.board.starCount == stars
    ensures u.board.highScore == b.highScore && u.board.lastScore == b.lastScore
    ensures u.scores.high >= s.high && u.scores.high >= stars
    ensures u.scores.high == s.high || u.scores.high == stars
    ensures gameOver ==> u.scores.last == stars
    ensures !gameOver ==> u.scores.last == s.last
    ensures ScoresOk(s) && stars >= 0 ==> ScoresOk(u.scores)
  {
    var last := if gameOver then stars else s.last;
    var high := if stars > s.high then stars else s.high;
    Updated(b.(healthCount := health, starCount := stars), Scores(high, last))
  }

  /** Updating again with the same player values changes nothing, so writing the
      last score on every tick of a finished game is harmless. */
  lemma UpdateIdempotent(b: Scoreboard, health: int, stars: int, gameOver: bool, s: Scores)
    ensures var u := Update(b, health, stars, gameOver, s);
            Update(u.board, health, stars, gameOver, u.scores) == u
  {
  }
}

=== FILE: session.dfy ===
/** One game session: the player, the enemies, the star, the message overlay,
    the scoreboard and the two page-wide flags, gathered in one record with the
    step functions that advance it. */
module Session {
  import opened Board
  import opened Collision
  import opened Players
  import Enemies
  import Goodies
  import Messages
  import Scoreboards

  /** Everything the simulation reads and writes. `scores` survives new games;
      `gameOver` and `ready` are the flags the engine polls. */
  datatype Game = Game(
    player: Player,
    enemies: seq<Enemies.Enemy>,
    stars: Goodies.Goody,
    message: Messages.Message,
    scoreboard: Scoreboards.Scoreboard,
    scores: Scoreboards.Scores,
    gameOver: bool,
    ready: bool)

  /** The three conditions `Player.update` evaluates after moving. */
  datatype Flags = Flags(hitEnemy: bool, gotWet: bool, gotObjective: bool)

  const EnemyCount: nat := 10
  const MessageFontSize: int := 40
  const MessageLength: real := 1.0

  /** The loop over all enemies: does any of them collide with `p`? */
  function HitAny(p: Pos, es: seq<Enemies.Enemy>): (hit: bool)
    ensures hit <==> exists i :: 0 <= i < |es| && Collides(p, es[i].pos)
  {
    if |es| == 0 then false
    else
      var rest := HitAny(p, es[1..]);
      assert forall i :: 1 <= i < |es| ==> es[i] == es[1..][i - 1];
      Collides(p, es[0].pos) || rest
  }

  /** The player is in the water row. */
  predicate InWater(p: Pos)
  {
    p.y < CellHeight + HeightOffset
  }

  /** The three flags at position `p`, in the order the update sets them. The
      objective test does not look at whether the star is spawned: it relies on
      an absent star colliding with nothing. With the star's invariant the
      objective excludes both other flags. */
  function ComputeFlags(p: Pos, es: seq<Enemies.Enemy>, star: Goodies.Goody): (f: Flags)
    ensures f.hitEnemy <==> exists i :: 0 <= i < |es| && Collides(p, es[i].pos)
    ensures f.gotWet ==> InWater(p)
    ensures f.gotObjective ==> !f.hitEnemy && star.pos.Some?
    ensures Goodies.Inv(star) ==>
              (f.gotObjective <==> !f.hitEnemy && star.spawned && Collides(p, star.pos.value))
    ensures Goodies.Inv(star) && f.gotObjective ==> !f.gotWet
    ensures InWater(p) && !star.spawned ==> f.gotWet
    ensures Goodies.Inv(star) && OnGrid(p) ==>
              (f.gotWet <==> InWater(p) && !(star.spawned && p == star.pos.value))
  {
    var hitEnemy := HitAny(p, es);
    var gotWet := InWater(p) && (!star.spawned || !CollidesAt(p, star.pos));
    var gotObjective := !hitEnemy && CollidesAt(p, star.pos);
    Flags(hitEnemy, gotWet, gotObjective)
  }

  /** Where the pending move takes the player this tick. */
  function MovedPos(g: Game): Pos
  {
    ApplyMove(g.player.pos, g.player.move, g.gameOver)
  }

  /** The flags `Player.update` computes for the game `g`. */
  function FlagsOf(g: Game): Flags
  {
    ComputeFlags(MovedPos(g), g.enemies, g.stars)
  }

  /** A tick costs a life: an enemy hit, or the water without the objective. */
  predicate Damaged(f: Flags)
  {
    f.hitEnemy || (f.gotWet && !f.gotObjective)
  }

  /** `Player.update`: apply the pending move, clear it, evaluate the flags, and
      resolve them. Any flag sends the player home; the objective scores a star
      and takes the star off the board; damage costs a life, or ends the game
      when none is left. */
  function PlayerUpdate(g: Game): (r: Game)
    ensures r.enemies == g.enemies && r.scoreboard == g.scoreboard
    ensures r.scores == g.scores && r.ready == g.ready
    ensures r.player.move == NoMove
    ensures InBounds(g.player.pos) ==> InBounds(r.player.pos)
    ensures var f := FlagsOf(g);
            && ((f.hitEnemy || f.gotWet || f.gotObjective) ==> r.player.pos == Home)
            && (!(f.hitEnemy || f.gotWet || f.gotObjective) ==> r.player.pos == MovedPos(g))
            && r.player.stars == g.player.stars + (if f.gotObjective then 1 else 0)
            && (f.gotObjective ==> r.stars == Goodies.Despawn(g.stars))
            && (!f.gotObjective ==> r.stars == g.stars)
            && (r.gameOver <==> g.gameOver || (Damaged(f) && g.player.health == 0))
            && r.player.health == (if Damaged(f) && g.player.health != 0 then g.player.health - 1
                                   else g.player.health)
    ensures var f := FlagsOf(g);
            && (f.gotObjective ==> r.message == Messages.Print("Got One!", MessageFontSize, MessageLength))
            && (Damaged(f) && g.player.health != 0 && f.hitEnemy ==>
                  r.message == Messages.Print("Ouch!", MessageFontSize, MessageLength))
            && (Damaged(f) && g.player.health != 0 && !f.hitEnemy ==>
                  r.message == Messages.Print("Don't get wet!", MessageFontSize, MessageLength))
            && (!f.gotObjective && !(Damaged(f) && g.player.health != 0) ==> r.message == g.message)
    ensures g.player.health >= 0 ==>
              0 <= r.player.health <= g.player.health && r.player.health >= g.player.health - 1
  {
    var p := g.player;
    var pos := MovedPos(g);
    var f := FlagsOf(g);
    var star := if f.gotObjective then Goodies.Despawn(g.stars) else g.stars;
    var moved := g.(player := p.(pos := pos, move := NoMove), stars := star);
    if !(f.hitEnemy || f.gotObjective || f.gotWet) then moved
    else
      HomeCell();
      var home := moved.(player := moved.player.(pos := Home));
      if f.gotObjective && !f.hitEnemy then
        home.(message := Messages.Print("Got One!", MessageFontSize, MessageLength),
              player := home.player.(stars := p.stars + 1))
      else if f.hitEnemy || (f.gotWet && !f.gotObjective) then
        if p.health == 0 then home.(gameOver := true)
        else
          var text := if f.hitEnemy then "Ouch!" else "Don't get wet!";
          home.(player := home.player.(health := p.health - 1),
                message := Messages.Print(text, MessageFontSize, MessageLength))
      else home
  }

  /** `Player.handleInput`: any key cuts the message short, readies a new game
      if this one is over, and records the requested move. */
  function HandleInput(g: Game, d: Direction): (r: Game)
    ensures r.message == g.message.(length := 0.0)
    ensures r.ready <==> g.ready || g.gameOver
    ensures r.player.move == InputMove(d, g.player.move)
    ensures d == Unmapped ==> r.player.move == g.player.move
    ensures d != Unmapped ==> SingleStep(r.player.move)
    ensures r.player.pos == g.player.pos && r.player.stars == g.player.stars
    ensures r.player.health == g.player.health
    ensures r.enemies == g.enemies && r.stars == g.stars && r.gameOver == g.gameOver
    ensures r.scoreboard == g.scoreboard && r.scores == g.scores
  {
    g.(message := g.message.(length := 0.0),
       ready := if g.gameOver then true else g.ready,
       player := g.player.(move := InputMove(d, g.player.move)))
  }

  /** `Scoreboard.update` on the game's scoreboard and score pair. */
  function ScoreboardUpdate(g: Game): (r: Game)
    ensures r.scoreboard.healthCount == g.player.health
    ensures r.scoreboard.starCount == g.player.stars
    ensures r.scores.high >= g.scores.high && r.scores.high >= g.player.stars
    ensures r.scores.high == g.scores.high || r.scores.high == g.player.stars
    ensures r.scoreboard.highScore == g.scoreboard.highScore
    ensures r.scoreboard.lastScore == g.scoreboard.lastScore
    ensures r.scores.last == (if g.gameOver then g.player.stars else g.scores.last)
    ensures r.player == g.player && r.enemies == g.enemies && r.stars == g.stars
    ensures r.message == g.message && r.gameOver == g.gameOver && r.ready == g.ready
  {
    var u := Scoreboards.Update(g.scoreboard, g.player.health, g.player.stars, g.gameOver, g.scores);
    g.(scoreboard := u.board, scores := u.scores)
  }

  /** One engine frame: every enemy, then the star, the player, the message and
      the scoreboard, each with the draws it may consume. */
  function Tick(g: Game, dt: real, enemyDraws: seq<Enemies.EnemyDraw>, starDraw: Goodies.GoodyDraw): (r: Game)
    requires |enemyDraws| == |g.enemies|
    ensures r.enemies == Enemies.UpdateAll(g.enemies, dt, enemyDraws)
    ensures var s := Goodies.Update(g.stars, dt, starDraw);
            r.stars == s || r.stars == Goodies.Despawn(s)
    ensures r.player.move == NoMove && r.ready == g.ready
    ensures r.player.stars == g.player.stars || r.player.stars == g.player.stars + 1
    ensures g.player.health >= 0 ==> g.player.health - 1 <= r.player.health <= g.player.health
    ensures g.gameOver ==> r.gameOver
    ensures var p := PlayerUpdate(g.(enemies := Enemies.UpdateAll(g.enemies, dt, enemyDraws),
                                     stars := Goodies.Update(g.stars, dt, starDraw)));
            && r.player == p.player && r.gameOver == p.gameOver && r.stars == p.stars
            && r.message == Messages.Update(p.message, dt)
    ensures r.scores.high >= g.scores.high && r.scores.high >= r.player.stars
    ensures r.scores.high == g.scores.high || r.scores.high == r.player.stars
    ensures r.scores.last == (if r.gameOver then r.player.stars else g.scores.last)
    ensures r.scoreboard.healthCount == r.player.health && r.scoreboard.starCount == r.player.stars
    ensures r.scoreboard.highScore == g.scoreboard.highScore && r.scoreboard.lastScore == g.scoreboard.lastScore
  {
    var g1 := g.(enemies := Enemies.UpdateAll(g.enemies, dt, enemyDraws));
    var g2 := g1.(stars := Goodies.Update(g1.stars, dt, starDraw));
    var g3 := PlayerUpdate(g2);
    var g4 := g3.(message := Messages.Update(g3.message, dt));
    ScoreboardUpdate(g4)
  }

  /** What the engine and the keyboard feed a session: a frame of `dt` seconds
      with the draws it may consume, or a key press. */
  datatype Event =
    | Frame(dt: real, enemyDraws: seq<Enemies.EnemyDraw>, starDraw: Goodies.GoodyDraw)
    | Key(d: Direction)

  /** Every frame carries one draw triple per enemy. */
  predicate DrawsFit(n: nat, events: seq<Event>)
  {
    forall i :: 0 <= i < |events| ==> events[i].Frame? ==> |events[i].enemyDraws| == n
  }

  /** The session after one event. */
  function Step(g: Game, e: Event): (r: Game)
    requires e.Frame? ==> |e.enemyDraws| == |g.enemies|
    ensures |r.enemies| == |g.enemies|
  {
    match e
    case Frame(dt, enemyDraws, starDraw) => Tick(g, dt, enemyDraws, starDraw)
    case Key(d) => HandleInput(g, d)
  }

  /** The session after a run of events, in order. */
  function Play(g: Game, events: seq<Event>): (r: Game)
    requires DrawsFit(|g.enemies|, events)
    ensures |r.enemies| == |g.enemies|
    decreases |events|
  {
    if |events| == 0 then g
    else Play(Step(g, events[0]), events[1..])
  }

  /** The session invariant. */
  predicate Inv(g: Game)
  {
    && (forall i :: 0 <= i < |g.enemies| ==> Enemies.Valid(g.enemies[i]))
    && Goodies.Inv(g.stars)
    && Players.Ok(g.player)
    && (g.ready ==> g.gameOver)
    && (g.gameOver ==> g.player.pos == Home)
    && Scoreboards.ScoresOk(g.scores)
    && g.player.stars <= g.scores.high
    && g.scoreboard.healthCount == g.player.health
    && g.scoreboard.starCount == g.player.stars
  }

  /** `initGame`: the opening message, both flags cleared, a new player, ten new
      enemies, the star goody (spawn rate 2, cooldown 5 s, lifespan 7 s, an
      objective) and a new scoreboard. The score pair is kept. */
  method InitGame(scores: Scoreboards.Scores, enemyDraws: seq<Enemies.EnemyDraw>, starDraw: Goodies.GoodyDraw)
    returns (g: Game)
    requires |enemyDraws| >= EnemyCount
    ensures g.message == Messages.Print("SHALL WE PLAY A GAME?", 36, 2.0)
    ensures !g.gameOver && !g.ready
    ensures g.player.pos == Home && g.player.move == NoMove
    ensures g.player.health == StartHealth && g.player.stars == 0
    ensures |g.enemies| == EnemyCount
    ensures forall i :: 0 <= i < EnemyCount ==> g.enemies[i] == Enemies.NewEnemy(enemyDraws[i])
    ensures g.stars.spawnRate == 2 && g.stars.cooldownInit == 5.0 && g.stars.lifespanInit == 7.0
    ensures g.stars.isObjective
    ensures g.stars.cooldown == 5.0 && g.stars.lifespan == 7.0
    ensures g.stars == Goodies.NewGoody(2, 5.0, 7.0, true, starDraw)
    ensures g.stars.spawned <==> RandomInt(starDraw.odds, 0, 2) <= 1
    ensures g.stars.spawned ==> g.stars.pos.Some? && Goodies.TopRowCell(g.stars.pos.value)
    ensures !g.stars.spawned ==> g.stars.pos == None
    ensures g.scores == scores
    ensures g.scoreboard == Scoreboards.NewScoreboard(StartHealth, 0, scores)
    ensures Scoreboards.ScoresOk(scores) ==> Inv(g)
  {
    var message := Messages.Print("SHALL WE PLAY A GAME?", 36, 2.0);
    var player := NewPlayer();
    var enemies := Enemies.GenerateEnemies(EnemyCount, enemyDraws);
    var stars := Goodies.NewGoody(2, 5.0, 7.0, true, starDraw);
    var board := Scoreboards.NewScoreboard(player.health, player.stars, scores);
    g := Game(player, enemies, stars, message, board, scores, false, false);
  }
}

module SessionProofs {
  import opened Board
  import opened Collision
  import opened Players
  import opened Session
  import Enemies
  import Goodies
  import Messages
  import Scoreboards

  /** No enemy lane is within a box height of the bottom row. */
  lemma HomeIsSafe(es: seq<Enemies.Enemy>, star: Goodies.Goody)
    requires forall i :: 0 <= i < |es| ==> Enemies.Valid(es[i])
    requires Goodies.Inv(star)
    ensures ComputeFlags(Home, es, star) == Flags(false, false, false)
  {
  }

  /** On the grid the water test picks out exactly the top row, where the star
      appears. */
  lemma WaterIsTopRow(p: Pos)
    requires OnGrid(p)
    ensures InWater(p) <==> p.y == HeightOffset
  {
    CellSize();
  }

  /** On the grid, touching the star means standing on its cell. */
  lemma GridCollisionIsSameCell(a: Pos, b: Pos)
    requires OnGrid(a) && Goodies.TopRowCell(b)
    ensures Collides(a, b) <==> a == b
  {
  }

  /** `Player.update` keeps the session invariant between the player's and the
      scoreboard's steps, except that the stars may run one ahead of the high
      score and the scoreboard mirror is stale. */
  lemma PlayerUpdateKeepsInv(g: Game)
    requires Inv(g)
    ensures var r := PlayerUpdate(g);
            && Players.Ok(r.player)
            && Goodies.Inv(r.stars)
            && (r.ready ==> r.gameOver)
            && (r.gameOver ==> r.player.pos == Home)
            && (forall i :: 0 <= i < |r.enemies| ==> Enemies.Valid(r.enemies[i]))
  {
    // The intermediate facts keep the solver's search small.
    var r := PlayerUpdate(g);
    HomeCell();
    assert OnGrid(MovedPos(g)) && InBounds(MovedPos(g));
    assert OnGrid(r.player.pos) && InBounds(r.player.pos);
    assert Goodies.Inv(r.stars);
    if g.gameOver {
      assert MovedPos(g) == Home;
    }
  }

  /** After the game is over the player update changes nothing but clearing the
      pending move: the player sits at home, where nothing can touch it. */
  lemma GameOverIsQuiet(g: Game)
    requires Inv(g) && g.gameOver
    ensures PlayerUpdate(g) == g.(player := g.player.(move := NoMove))
  {
    assert MovedPos(g) == Home;
    HomeIsSafe(g.enemies, g.stars);
  }

  /** A frame keeps the session invariant. */
  lemma TickKeepsInv(g: Game, dt: real, enemyDraws: seq<Enemies.EnemyDraw>, starDraw: Goodies.GoodyDraw)
    requires Inv(g) && dt >= 0.0
    requires |enemyDraws| == |g.enemies|
    ensures Inv(Tick(g, dt, enemyDraws, starDraw))
  {
    var g1 := g.(enemies := Enemies.UpdateAll(g.enemies, dt, enemyDraws));
    var g2 := g1.(stars := Goodies.Update(g1.stars, dt, starDraw));
    PlayerUpdateKeepsInv(g2);
  }

  /** A key press keeps the session invariant, and afterwards the game is
      ready for a new one exactly when it is over. */
  lemma HandleInputKeepsInv(g: Game, d: Direction)
    requires Inv(g)
    ensures Inv(HandleInput(g, d))
    ensures HandleInput(g, d).ready == g.gameOver
  {
  }

  /** A key press dismisses the current message at the next frame. */
  lemma InputDismissesMessage(g: Game, d: Direction, dt: real)
    requires dt >= 0.0
    ensures !Messages.Update(HandleInput(g, d).message, dt).onDisplay
  {
  }

  /** Frame times are never negative. */
  predicate TimesNonNegative(events: seq<Event>)
  {
    forall i :: 0 <= i < |events| ==> events[i].Frame? ==> events[i].dt >= 0.0
  }

  /** One event keeps the invariant, never raises health, never lowers the stars
      or the high score, and leaves a finished game finished with its stars and
      health frozen. */
  lemma StepKeepsInv(g: Game, e: Event)
    requires Inv(g)
    requires e.Frame? ==> |e.enemyDraws| == |g.enemies| && e.dt >= 0.0
    ensures var r := Step(g, e);
            && Inv(r)
            && r.player.health <= g.player.health
            && r.player.stars >= g.player.stars
            && r.scores.high >= g.scores.high
            && (g.gameOver ==> r.gameOver && r.player.stars == g.player.stars
                               && r.player.health == g.player.health)
  {
    if e.Frame? {
      TickKeepsInv(g, e.dt, e.enemyDraws, e.starDraw);
      var g1 := g.(enemies := Enemies.UpdateAll(g.enemies, e.dt, e.enemyDraws));
      var g2 := g1.(stars := Goodies.Update(g1.stars, e.dt, e.starDraw));
      if g.gameOver {
        GameOverIsQuiet(g2);
      }
    }
  }

  /** Over any run of events the invariant holds, health never rises, stars and
      the high score never fall, and once the game is over it stays over with
      the final stars and health. */
  lemma {:induction false} PlayKeepsInv(g: Game, events: seq<Event>)
    requires Inv(g)
    requires DrawsFit(|g.enemies|, events) && TimesNonNegative(events)
    ensures var r := Play(g, events);
            && Inv(r)
            && r.player.health <= g.player.health
            && r.player.stars >= g.player.stars
            && r.scores.high >= g.scores.high
            && (g.gameOver ==> r.gameOver && r.player.stars == g.player.stars
                               && r.player.health == g.player.health)
    decreases |events|
  {
    if |events| > 0 {
      var next := Step(g, events[0]);
      StepKeepsInv(g, events[0]);
      assert DrawsFit(|next.enemies|, events[1..]);
      assert TimesNonNegative(events[1..]);
      PlayKeepsInv(next, events[1..]);
    }
  }
}
